=== FILE: README.md ===
# MediaKeyTap, modelled in Dafny

MediaKeyTap lets a macOS application take the hardware media keys (play/pause,
next, previous, fast-forward, rewind) only while it is the media application
the user activated most recently. It is built from three pieces. This model
states the logic of each as pure functions over immutable values:

- **The tap internals** (`MediaKeyTapInternals`, with the decoder in `KeyDecoder`).
  The tap decodes the bit-packed `data1` word of a system-defined event into a
  key event. It decides whether to swallow the raw event and queue the decoded
  event for the delegate, or to pass it through. It reacts to the tap-disabled
  notifications. Starting, stopping, restarting and enabling the tap each become
  an ordered trace of steps. Whether the system grants the port and the run-loop
  source is an input.
- **The application watcher** (`MediaApplicationWatcher`). It keeps
  `mediaApps`: the running whitelisted applications, most recently activated
  first. It reacts to launch, activation and termination notifications. It tells
  its delegate whether this process is the front application. Through the
  announce/reply handshake it learns other processes that use the library.
  `ActivationHistory` states what the list means over a whole history.
  `PeerNetwork` connects several watchers through a broadcast channel and shows
  that every handshake dies out.
- **The facade** (`MediaKeyTap`). It maps keycodes to media keys and applies
  the press-mode filter. It owns the intercept flag; an assignment calls
  `enableTap` only when the value changes.

Modelling choices:

- `NSEvent.data1` is a 64-bit Swift `Int`, modelled as `bv64`. The keycode and
  flags are `bv16`. All decoder properties are stated and proved at the
  bit-vector level.
- The IOKit constants `NX_KEYTYPE_PLAY`, `NX_KEYTYPE_NEXT`,
  `NX_KEYTYPE_PREVIOUS`, `NX_KEYTYPE_FAST`, `NX_KEYTYPE_REWIND` and
  `NX_SYSDEFINED` are not defined in the modelled files. They are the fields of
  a `KeyCodes` parameter. No property depends on their numeric values. Only the
  keycode round trip needs the five key constants to be distinct
  (`KeyCodes.Distinct`).
- A running application is `App(pid, bundleId)`. Equality of two values stands
  for `NSRunningApplication` equality, which means the same process. An
  application without a bundle identifier is never whitelisted.
- Bundle identifiers are Dafny strings compared code unit by code unit, while
  Swift's `String ==` and `Set<String>.contains` compare by Unicode canonical
  equivalence. The two agree on the ASCII characters bundle identifiers are
  limited to.
- Delegate calls, posted distributed notifications and main-queue dispatches
  are outputs: sequences returned next to the new state.

Behaviour of the code worth stating, since a reader might expect otherwise:

- `MediaKeyTap.start` calls the throwing `startWatchingMediaKeys` without
  `try` and has no error handling around it. The model's
  `MediaKeyTap.StartWatching` returns the outcome, and the watcher keeps
  running whatever it is.
- The facade does not implement `whitelistedAppStarted`, so
  `WhitelistedAppStarted` is emitted and nothing reacts to it.
- `stopWatchingMediaKeys` invalidates the handles without clearing the
  fields, so `MediaKeyTapInternals.StopWatching` leaves them held.
- The static whitelist has 32 identifiers, plus this process's own.

## Model

| member | source | states |
|---|---|---|
| KeyDecoder.ExtractKeyCode | MediaKeyTap/MediaKeyTapInternals.swift:152-154 | the keycode is bits 16..31 of `data1`, i.e. `(data1 >> 16) mod 2^16` |
| KeyDecoder.ExtractKeyFlags | MediaKeyTap/MediaKeyTapInternals.swift:158 | the flags are `data1 mod 2^16` |
| KeyDecoder.IsPressed | MediaKeyTap/MediaKeyTapInternals.swift:159 | a key is pressed iff the high byte of the flags is `0x0a` |
| KeyDecoder.IsRepeat | MediaKeyTap/MediaKeyTapInternals.swift:160 | a key repeats iff the flags are odd (bit 0 set) |
| KeyDecoder.ToKeyEvent | MediaKeyTap/MediaKeyTapInternals.swift:156-163 | the decoded event's keycode, flags, pressed and repeat fields, each in terms of the bits of `data1` |
| KeyDecoder.Pack | MediaKeyTap/MediaKeyTapInternals.swift:153-158 | the layout the decoder reads: `data1 = keycode * 2^16 + flags` |
| KeyDecoder.EncodeFlags | MediaKeyTap/MediaKeyTapInternals.swift:159-160 | the flags of a press have high byte `0x0a` and of a release `0x0b`; the low bit is the repeat bit |
| KeyDecoder.PackRoundTrip | MediaKeyTap/MediaKeyTapInternals.swift:153-158 | decoding `keycode * 2^16 + flags` gives back exactly that keycode and those flags |
| KeyDecoder.EventRoundTrip | MediaKeyTap/MediaKeyTapInternals.swift:156-163 | a payload packed from a keycode, a press state and a repeat bit decodes to those three values |
| KeyDecoder.UnpackRoundTrip | MediaKeyTap/MediaKeyTapInternals.swift:152-158 | every payload whose upper 32 bits are clear is recovered by packing its decoded keycode and flags |
| KeyDecoder.IsKeyEvent | MediaKeyTap/MediaKeyTapInternals.swift:148-150 | the hardware-key subtype test, `subtype == 8`; the contract of `IsMediaKeyEvent` states what it contributes |
| KeyDecoder.IsMediaKeyEvent | MediaKeyTap/MediaKeyTapInternals.swift:165-169 | an event is a media-key event iff its subtype is 8 and its keycode is one of the five media keycodes |
| MediaKeyTapInternals.HandleEvent | MediaKeyTap/MediaKeyTapInternals.swift:92-107 | the event is swallowed iff its type is `NX_SYSDEFINED`, it converts to an NSEvent, it is a media-key event and a delegate reports intercepting; exactly then one decoded event is queued for the delegate, otherwise the event passes unchanged and nothing is queued |
| MediaKeyTapInternals.EventTapCallback | MediaKeyTap/MediaKeyTapInternals.swift:69-79 | a timeout passes the event and re-enables the tap iff a port is held; a user-input disable passes it with no effect; neither queues anything, and the tap is re-enabled on no other type; other types are swallowed exactly as `handleEvent` decides; a passed event is the input itself with nothing queued, and a swallowed one queues exactly the decoding of its `data1` |
| MediaKeyTapInternals.StartKeyEventTap | MediaKeyTap/MediaKeyTapInternals.swift:109-128 | the steps are in the order request, port, source, run loop; interception is requested first iff not restarting and a delegate is set; the port is always created next; the source is created iff the port was granted; a missing port throws `eventTapCreationFailure` and no source is created; a missing source throws `runLoopSourceCreationFailure`; the run loop is spawned only on success; the handles afterwards, including the old source left in place when port creation fails |
| MediaKeyTapInternals.StopWatching | MediaKeyTap/MediaKeyTapInternals.swift:86-90 | exactly the held handles are torn down, in the order source, run loop, port, and the handles are not cleared |
| MediaKeyTapInternals.RestartTap | MediaKeyTap/MediaKeyTapInternals.swift:63-66 | a restart's steps are the teardown followed by the steps of a start with `restart: true`, and its error and handles are that start's |
| MediaKeyTapInternals.RestartTearsDownFirst | MediaKeyTap/MediaKeyTapInternals.swift:63-66 | a restart begins with exactly the teardown of the held handles and never requests interception |
| MediaKeyTapInternals.RestartRebuilds | MediaKeyTap/MediaKeyTapInternals.swift:63-66 | after the teardown a restart creates the port, then the source iff the port was granted, then spawns the run loop iff it succeeds; its error and handles are those of a first start |
| MediaKeyTapInternals.EnableTap | MediaKeyTap/MediaKeyTapInternals.swift:51-58 | enabling or disabling is scheduled on the run loop and the loop is woken iff both a port and a run loop are held |
| MediaKeyTap.Init | MediaKeyTap/MediaKeyTap.swift:45-51 | a new instance is not intercepting and keeps the press mode it was given |
| MediaKeyTap.InitDefaults | MediaKeyTap/MediaKeyTap.swift:45 | without a mode argument the press mode is key-down |
| MediaKeyTap.KeycodeToMediaKey | MediaKeyTap/MediaKeyTap.swift:61-70 | a keycode has a media key iff it is one of the five keycodes the media-key check lists, and that key's keycode is the input |
| MediaKeyTap.KeycodeRoundTrip | MediaKeyTap/MediaKeyTap.swift:61-70 | with distinct constants, each media key is recovered from its own keycode |
| MediaKeyTap.KeycodeToMediaKeyInjective | MediaKeyTap/MediaKeyTap.swift:61-70 | two keycodes that map to the same media key are equal |
| MediaKeyTap.ShouldNotifyDelegate | MediaKeyTap/MediaKeyTap.swift:72-81 | key-down mode passes exactly presses, key-up mode exactly releases, and the combined mode everything |
| MediaKeyTap.PressModesPartition | MediaKeyTap/MediaKeyTap.swift:72-81 | for every event exactly one of key-down and key-up mode notifies, and the combined mode always does |
| MediaKeyTap.HandleKeyEvent | MediaKeyTap/MediaKeyTap.swift:95-101 | the host delegate is called at most once; it is called iff the keycode is a media keycode and the mode filter passes the event, with that event and the key whose keycode it is |
| MediaKeyTap.SetInterceptMediaKeys | MediaKeyTap/MediaKeyTap.swift:35-41 | the flag takes the new value; `enableTap(new)` is called once iff the value changed, and otherwise nothing is called |
| MediaKeyTap.SetInterceptIdempotent | MediaKeyTap/MediaKeyTap.swift:35-41 | repeating an assignment changes nothing and calls nothing |
| MediaKeyTap.AssignAllCountsChanges | MediaKeyTap/MediaKeyTap.swift:35-41 | over any series of assignments, the number of `enableTap` calls equals the number of value changes; the calls alternate, starting from the opposite of the initial value; the flag ends at the last value |
| MediaKeyTap.UpdateIsActiveMediaApp | MediaKeyTap/MediaKeyTap.swift:85-87 | the watcher's update sets the flag to the given value and calls `enableTap` only on a change |
| MediaKeyTap.UpdateInterceptMediaKeys | MediaKeyTap/MediaKeyTap.swift:91-93 | the tap's update acts exactly as the watcher's update, and the flag reads back as the assigned value |
| MediaKeyTap.IsInterceptingMediaKeys | MediaKeyTap/MediaKeyTap.swift:103-105 | reports the flag; `InterceptReadsBack` states that it returns the value last assigned |
| MediaKeyTap.InterceptReadsBack | MediaKeyTap/MediaKeyTap.swift:85-105 | after either update, `isInterceptingMediaKeys` reports the assigned value, and the two updates act alike |
| MediaKeyTap.SwallowedEventsReachHost | MediaKeyTap/MediaKeyTapInternals.swift:92-103 | an event the tap swallows while the facade reports intercepting yields one queued key event, and the facade passes it to the host iff the press mode allows |
| MediaKeyTap.StartWatching | MediaKeyTap/MediaKeyTap.swift:53-59 | starting sets the intercept flag even when creating the tap fails; the steps are the request for interception, then `enableTap(true)` on the handles already held iff the flag was off, then a first start's creation steps; the result and handles are that start's |
| MediaKeyTap.FreshStart | MediaKeyTap/MediaKeyTap.swift:45-59 | starting a new instance sets the flag, asks for interception and then creates the port, and succeeds iff port and source are granted |
| MediaApplicationWatcher.InitialWatcher | MediaKeyTap/MediaApplicationWatcher.swift:28-31 | the initial watcher has no media apps and an empty dynamic whitelist, and so is valid |
| MediaApplicationWatcher.WhitelistedApplicationIdentifiers | MediaKeyTap/MediaApplicationWatcher.swift:129-170 | the static whitelist holds every known media application, holds this process's own identifier when it has one, and holds nothing else |
| MediaApplicationWatcher.InStaticWhitelist | MediaKeyTap/MediaApplicationWatcher.swift:172-174 | the static whitelist test; `WhitelistedCharacterised` states its meaning |
| MediaApplicationWatcher.InDynamicWhitelist | MediaKeyTap/MediaApplicationWatcher.swift:176-178 | the test against identifiers learned from peers; `WhitelistedCharacterised` states its meaning |
| MediaApplicationWatcher.Whitelisted | MediaKeyTap/MediaApplicationWatcher.swift:180-182 | either whitelist; `WhitelistedCharacterised` states its meaning |
| MediaApplicationWatcher.WhitelistedCharacterised | MediaKeyTap/MediaApplicationWatcher.swift:172-182 | an application is whitelisted iff it has a bundle identifier that is a known media application, this process's own, or learned from a peer |
| MediaApplicationWatcher.UpdateKeyInterceptStatus | MediaKeyTap/MediaApplicationWatcher.swift:117-124 | nothing is emitted for an empty list; otherwise exactly one value, whether the front app is this process |
| MediaApplicationWatcher.ApplicationLaunched | MediaKeyTap/MediaApplicationWatcher.swift:92-98 | `whitelistedAppStarted` is emitted, once, iff the app is statically whitelisted and is not this process; an app without a bundle identifier never triggers it; the state is unchanged |
| MediaApplicationWatcher.ApplicationActivated | MediaKeyTap/MediaApplicationWatcher.swift:100-108 | a non-whitelisted app changes nothing and emits nothing; a whitelisted one ends up at the front, exactly once; the rest is the old list without it, in order; the status emitted is whether that app is this process |
| MediaApplicationWatcher.ApplicationTerminated | MediaKeyTap/MediaApplicationWatcher.swift:110-115 | every entry for the app is removed and the rest keep their order; an absent app leaves the list unchanged; the status is emitted iff the list is not empty |
| MediaApplicationWatcher.ReceiveDidStart | MediaKeyTap/MediaApplicationWatcher.swift:72-80 | an announcement from another identifier adds it to the dynamic whitelist and posts exactly one reply carrying this process's identifier; one without an identifier, or with this process's own, changes nothing |
| MediaApplicationWatcher.ReceiveReply | MediaKeyTap/MediaApplicationWatcher.swift:82-87 | a reply never posts anything; from another identifier it adds that identifier, otherwise it changes nothing |
| MediaApplicationWatcher.Start | MediaKeyTap/MediaApplicationWatcher.swift:68-70 | starting announces this process's identifier once and changes no state |
| MediaApplicationWatcher.StepPreservesValid | MediaKeyTap/MediaApplicationWatcher.swift:92-115 | every notification keeps the list free of duplicates and holding only whitelisted apps; it only grows the dynamic whitelist and emits at most one output |
| ActivationHistory.ReplayIsRecencyOrder | MediaKeyTap/MediaApplicationWatcher.swift:72-115 | after any history of notifications, peer announcements and replies included, the list holds exactly the apps activated at a moment the watcher whitelisted them and not terminated since, ordered by that activation, latest first |
| ActivationHistory.ReplayGrowsWhitelist | MediaKeyTap/MediaApplicationWatcher.swift:72-87 | along any history the dynamic whitelist only grows |
| ActivationHistory.LiveIsWhitelisted | MediaKeyTap/MediaApplicationWatcher.swift:100-108 | an app in the list by activation-time whitelisting is still whitelisted now |
| ActivationHistory.FrontIsMostRecentlyActivated | MediaKeyTap/MediaApplicationWatcher.swift:100-124 | after any history, the front of the list is the live app activated most recently, and the list is empty iff no app is live |
| ActivationHistory.StatusNamesMostRecent | MediaKeyTap/MediaApplicationWatcher.swift:100-124 | after any history, on an activation of a whitelisted app or a termination, the emitted status says whether the most recently activated live app is this process; nothing is emitted iff no app is live |
| ActivationHistory.PlayerLifecycle | MediaKeyTap/MediaApplicationWatcher.swift:92-115 | a known player that is not this process launches, activates and terminates: the launch is reported once, the activation reports "not active", and the termination reports nothing |
| PeerNetwork.Receive | MediaKeyTap/MediaApplicationWatcher.swift:72-87 | a peer posts one reply with its own identifier to an announcement from someone else, and nothing in every other case; it adds the sender's identifier to its dynamic whitelist exactly when the sender has one that is not its own, and keeps its media list |
| PeerNetwork.Collect | MediaKeyTap/MediaApplicationWatcher.swift:72-87 | the posts caused by one broadcast contain no announcement and are no more than the peers; every post is a reply carrying some peer's identifier; an announcement with an identifier is answered by every peer whose identifier differs from it; a reply causes no post at all |
| PeerNetwork.Deliver | MediaKeyTap/MediaApplicationWatcher.swift:72-87 | a broadcast reaches every peer, and each peer reacts independently of the others |
| PeerNetwork.Run | MediaKeyTap/MediaApplicationWatcher.swift:72-87 | delivering until quiet always terminates because replies are never answered; at least every queued message and at most `queue + announcements * peers` messages are delivered, and whitelists only grow |
| PeerNetwork.TwoPeerHandshake | MediaKeyTap/MediaApplicationWatcher.swift:68-87 | when one of two peers with different identifiers starts, its announcement and the other's reply are the only two messages, and each learns the other's identifier |
| Seqs.Remove | MediaKeyTap/MediaApplicationWatcher.swift:104 | filtering an app out removes every copy and nothing else: the result is a subsequence without the app, shorter by the number of its copies, and equal to the input when the app was absent |

## Left out

- MediaApplicationWatcher.StepPreservesValid: states that every listed app is whitelisted now, which is weaker than the source's "whitelisted when it was activated". The stronger form, over histories that include peer messages, is `ActivationHistory.ReplayIsRecencyOrder`, and `ActivationHistory.LiveIsWhitelisted` derives the weaker one from it.

- Creating the CoreGraphics event tap and the run-loop source, `CFRunLoopRun`, `CFRunLoopPerformBlock`, `CFRunLoopWakeUp` and the `unsafeBitCast` bridging of the C callback are system calls. Whether the port and the source are granted is an input, and each call is one step of a trace.
- The dedicated queue sets the run-loop field asynchronously after the tap starts. The model sets it when the run loop is spawned.
- `DispatchQueue.main.async` and the unsynchronised read of the intercept flag across threads are concurrency. A main-queue hand-off is an element of the returned `dispatched` sequence.
- Subscribing to NSWorkspace and distributed notifications, posting, and the watcher's `stop()` are plumbing. Notifications are inputs and posts are outputs. Message loss, reordering, and the duplicate observers a second `start()` would register are not modelled.
- A workspace notification whose user info carries no application is ignored by the source. Such notifications are not inputs of the model.
- The watcher's delegate is assumed set, as `MediaKeyTap.start` sets it before starting the watcher. The tap's delegate is a parameter wherever the source reads it through `delegate?`.
- Storing the callback after a successful start (`callback = eventTapCallback`) only keeps it alive, so it has no modelled effect.
- The `description` strings of the error enum are not modelled.
- The raw values of `CGEventType`: the two tap-disabled notifications are separate constructors, and every other type carries its raw value.
- The numeric values of the IOKit key-type constants and of `NX_SYSDEFINED`, for the reasons given above.
- `MediaKeyTap/Extensions.swift`: the `<^>` operator is `Optional.map`, written as option matching where the source applies it.
- The example application (`MediaKeyTapExample`) is demonstration UI and printing.

=== FILE: activation_history.dfy ===
/** What the media-app list means over a whole history of notifications:
    it holds exactly the applications activated at a moment they were
    whitelisted and not terminated since, most recently activated first. */
module ActivationHistory {
  import opened Wrappers
  import opened Seqs
  import opened MediaApplicationWatcher

  /** The watcher after receiving every notification of `h`, in order. */
  function Replay(host: Host, w: Watcher, h: seq<Notification>): Watcher
    decreases |h|
  {
    if h == [] then w else Step(host, Replay(host, w, h[..|h| - 1]), h[|h| - 1]).0
  }

  /** Position of the last occurrence of `n` in `h`, or -1. */
  function LastIndex(h: seq<Notification>, n: Notification): (i: int)
    ensures -1 <= i < |h|
    ensures i >= 0 ==> h[i] == n
    ensures forall j :: i < j < |h| ==> h[j] != n
    decreases |h|
  {
    if h == [] then -1
    else if h[|h| - 1] == n then |h| - 1
    else LastIndex(h[..|h| - 1], n)
  }

  /** The application is whitelisted by the watcher that has received the
      first `k` notifications of `h`. */
  predicate WhitelistedAt(host: Host, w: Watcher, h: seq<Notification>, k: nat, app: App)
    requires k <= |h|
  {
    Whitelisted(host, Replay(host, w, h[..k]), app)
  }

  /** The position of the last activation of the application at which the
      watcher, having received everything before it, whitelisted it; -1 when
      there is none. Peer messages received in between may have whitelisted
      it meanwhile. */
  function LastActivation(host: Host, w: Watcher, h: seq<Notification>, app: App): (i: int)
    ensures -1 <= i < |h|
    ensures i >= 0 ==> h[i] == Activated(app) && WhitelistedAt(host, w, h, i, app)
    decreases |h|
  {
    if h == [] then -1
    else
      var p := h[..|h| - 1];
      if h[|h| - 1] == Activated(app) && Whitelisted(host, Replay(host, w, p), app) then |h| - 1
      else
        var i := LastActivation(host, w, p, app);
        assert i >= 0 ==> p[..i] == h[..i];
        i
  }

  /** The application was activated while whitelisted and has not terminated since. */
  predicate Live(host: Host, w: Watcher, h: seq<Notification>, app: App) {
    LastActivation(host, w, h, app) > LastIndex(h, Terminated(app))
  }

  /** Sorted by last activation, latest first. */
  predicate MostRecentFirst(host: Host, w: Watcher, h: seq<Notification>, apps: seq<App>) {
    forall i, j :: 0 <= i < j < |apps| ==> LastActivation(host, w, h, apps[i]) > LastActivation(host, w, h, apps[j])
  }

  /** The list holds exactly the live applications, most recently activated first. */
  ghost predicate Explains(host: Host, w: Watcher, h: seq<Notification>, apps: seq<App>) {
    && (forall x :: x in apps <==> Live(host, w, h, x))
    && MostRecentFirst(host, w, h, apps)
  }

  /** Appending a notification moves only its own last index. */
  lemma LastIndexAppend(p: seq<Notification>, e: Notification, m: Notification)
    ensures LastIndex(p + [e], m) == if m == e then |p| else LastIndex(p, m)
  {
    assert (p + [e])[..|p|] == p;
  }

  /** Appending a notification moves the last activation of an application only
      when it activates that application while whitelisted. */
  lemma LastActivationAppend(host: Host, w: Watcher, p: seq<Notification>, e: Notification, x: App)
    ensures LastActivation(host, w, p + [e], x) ==
      if e == Activated(x) && Whitelisted(host, Replay(host, w, p), x) then |p| else LastActivation(host, w, p, x)
  {
    assert (p + [e])[..|p|] == p;
  }

  /** A notification that neither activates nor terminates `x` leaves its history alone. */
  lemma Unaffected(host: Host, w: Watcher, p: seq<Notification>, e: Notification, x: App)
    requires e != Activated(x) && e != Terminated(x)
    ensures LastActivation(host, w, p + [e], x) == LastActivation(host, w, p, x)
    ensures Live(host, w, p + [e], x) == Live(host, w, p, x)
  {
    LastActivationAppend(host, w, p, e, x);
    LastIndexAppend(p, e, Terminated(x));
  }

  /** Removing the application an activation or termination is about from an
      ordered list keeps the others' order. */
  lemma RemoveKeepsOrder(host: Host, w: Watcher, p: seq<Notification>, e: Notification, apps: seq<App>)
    requires e.Activated? || e.Terminated?
    requires MostRecentFirst(host, w, p, apps)
    ensures MostRecentFirst(host, w, p + [e], Remove(apps, e.app))
  {
    var rest := Remove(apps, e.app);
    SubseqKeepsPairs(rest, apps, (x, y) => LastActivation(host, w, p, x) > LastActivation(host, w, p, y));
    forall i | 0 <= i < |rest|
      ensures LastActivation(host, w, p + [e], rest[i]) == LastActivation(host, w, p, rest[i])
    {
      Unaffected(host, w, p, e, rest[i]);
    }
  }

  /** After activating a whitelisted application, the live applications are it
      and the others that were live before. */
  lemma ActivationMembership(host: Host, w: Watcher, p: seq<Notification>, a: App, apps: seq<App>)
    requires Whitelisted(host, Replay(host, w, p), a)
    requires forall x :: x in apps <==> Live(host, w, p, x)
    ensures forall x :: x in [a] + Remove(apps, a) <==> Live(host, w, p + [Activated(a)], x)
  {
    var h := p + [Activated(a)];
    LastActivationAppend(host, w, p, Activated(a), a);
    LastIndexAppend(p, Activated(a), Terminated(a));
    assert Live(host, w, h, a);
    forall x ensures x in [a] + Remove(apps, a) <==> Live(host, w, h, x) {
      if x != a {
        Unaffected(host, w, p, Activated(a), x);
        RemoveMembership(apps, a, x);
      }
    }
  }

  /** The activated application, now activated last, heads the order. */
  lemma ActivationOrder(host: Host, w: Watcher, p: seq<Notification>, a: App, apps: seq<App>)
    requires Whitelisted(host, Replay(host, w, p), a)
    requires MostRecentFirst(host, w, p, apps)
    ensures MostRecentFirst(host, w, p + [Activated(a)], [a] + Remove(apps, a))
  {
    var h := p + [Activated(a)];
    var rest := Remove(apps, a);
    var apps' := [a] + rest;
    LastActivationAppend(host, w, p, Activated(a), a);
    assert LastActivation(host, w, h, a) == |p|;
    RemoveKeepsOrder(host, w, p, Activated(a), apps);
    forall i, j | 0 <= i < j < |apps'|
      ensures LastActivation(host, w, h, apps'[i]) > LastActivation(host, w, h, apps'[j])
    {
      assert apps'[j] == rest[j - 1];
      if i > 0 {
        assert apps'[i] == rest[i - 1];
      } else {
        Unaffected(host, w, p, Activated(a), rest[j - 1]);
      }
    }
  }

  /** Activation of a whitelisted application keeps the list explained. */
  lemma ActivationExplained(host: Host, w: Watcher, p: seq<Notification>, a: App, apps: seq<App>)
    requires Whitelisted(host, Replay(host, w, p), a)
    requires Explains(host, w, p, apps)
    ensures Explains(host, w, p + [Activated(a)], [a] + Remove(apps, a))
  {
    ActivationMembership(host, w, p, a, apps);
    ActivationOrder(host, w, p, a, apps);
  }

  /** Termination keeps the list explained. */
  lemma TerminationExplained(host: Host, w: Watcher, p: seq<Notification>, a: App, apps: seq<App>)
    requires Explains(host, w, p, apps)
    ensures Explains(host, w, p + [Terminated(a)], Remove(apps, a))
  {
    var h := p + [Terminated(a)];
    LastActivationAppend(host, w, p, Terminated(a), a);
    LastIndexAppend(p, Terminated(a), Terminated(a));
    forall x ensures x in Remove(apps, a) <==> Live(host, w, h, x) {
      RemoveMembership(apps, a, x);
      if x != a {
        Unaffected(host, w, p, Terminated(a), x);
      }
    }
    RemoveKeepsOrder(host, w, p, Terminated(a), apps);
  }

  /** Notifications that leave the list alone keep it explained: launches, peer
      messages and activations of applications not whitelisted at that moment. */
  lemma UnchangedExplained(host: Host, w: Watcher, p: seq<Notification>, e: Notification, apps: seq<App>)
    requires || e.Launched? || e.DidStart? || e.Reply?
             || (e.Activated? && !Whitelisted(host, Replay(host, w, p), e.app))
    requires Explains(host, w, p, apps)
    ensures Explains(host, w, p + [e], apps)
  {
    forall x ensures LastActivation(host, w, p + [e], x) == LastActivation(host, w, p, x)
                 && Live(host, w, p + [e], x) == Live(host, w, p, x) {
      LastActivationAppend(host, w, p, e, x);
      LastIndexAppend(p, e, Terminated(x));
    }
  }

  /** Starting from an empty list, after any history of notifications, peer
      messages included, the list holds exactly the applications activated at
      a moment they were whitelisted and not terminated since, ordered by that
      activation, latest first. */
  lemma {:induction false} ReplayIsRecencyOrder(host: Host, w: Watcher, h: seq<Notification>)
    requires w.mediaApps == []
    ensures Explains(host, w, h, Replay(host, w, h).mediaApps)
    decreases |h|
  {
    if h != [] {
      var p := h[..|h| - 1];
      var e := h[|h| - 1];
      assert h == p + [e];
      ReplayIsRecencyOrder(host, w, p);
      var before := Replay(host, w, p);
      match e
      case Activated(a) =>
        if Whitelisted(host, before, a) {
          ActivationExplained(host, w, p, a, before.mediaApps);
        } else {
          UnchangedExplained(host, w, p, e, before.mediaApps);
        }
      case Terminated(a) =>
        TerminationExplained(host, w, p, a, before.mediaApps);
      case _ =>
        UnchangedExplained(host, w, p, e, before.mediaApps);
    }
  }

  /** The dynamic whitelist only grows along a history. */
  lemma {:induction false} ReplayGrowsWhitelist(host: Host, w: Watcher, h: seq<Notification>, k: nat)
    requires k <= |h|
    ensures Replay(host, w, h[..k]).dynamicWhitelist <= Replay(host, w, h).dynamicWhitelist
    decreases |h| - k
  {
    if k < |h| {
      var p := h[..|h| - 1];
      assert p[..k] == h[..k];
      ReplayGrowsWhitelist(host, w, p, k);
    } else {
      assert h[..k] == h;
    }
  }

  /** An application whitelisted when it was activated stays whitelisted, so
      every live application is whitelisted now. */
  lemma LiveIsWhitelisted(host: Host, w: Watcher, h: seq<Notification>, x: App)
    requires Live(host, w, h, x)
    ensures Whitelisted(host, Replay(host, w, h), x)
  {
    var i := LastActivation(host, w, h, x);
    ReplayGrowsWhitelist(host, w, h, i);
  }

  /** The front of the list is the live application activated most recently,
      and the list is empty exactly when no application is live. */
  lemma FrontIsMostRecentlyActivated(host: Host, w: Watcher, h: seq<Notification>)
    requires w.mediaApps == []
    ensures var apps := Replay(host, w, h).mediaApps;
      && (apps == [] <==> forall x :: !Live(host, w, h, x))
      && (apps != [] ==> Live(host, w, h, apps[0])
                         && forall x :: Live(host, w, h, x) ==>
                              LastActivation(host, w, h, x) <= LastActivation(host, w, h, apps[0]))
  {
    ReplayIsRecencyOrder(host, w, h);
    var apps := Replay(host, w, h).mediaApps;
    if apps != [] {
      assert apps[0] in apps;
      assert Live(host, w, h, apps[0]);
      forall x | Live(host, w, h, x)
        ensures LastActivation(host, w, h, x) <= LastActivation(host, w, h, apps[0])
      {
        assert x in apps;
        var k :| 0 <= k < |apps| && apps[k] == x;
      }
    } else {
      forall x ensures !Live(host, w, h, x) {
        assert x !in apps;
      }
    }
  }

  /** The status emitted after an activation or termination names the live
      application activated most recently: it says whether that application is
      this process, and nothing is emitted when no application is live. */
  lemma StatusNamesMostRecent(host: Host, w: Watcher, h: seq<Notification>, e: Notification)
    requires w.mediaApps == []
    requires e.Terminated? || (e.Activated? && Whitelisted(host, Replay(host, w, h), e.app))
    ensures var out := Step(host, Replay(host, w, h), e).1;
      && (out == [] <==> forall x :: !Live(host, w, h + [e], x))
      && (out != [] ==> exists f ::
            && Live(host, w, h + [e], f)
            && (forall x :: Live(host, w, h + [e], x) ==>
                  LastActivation(host, w, h + [e], x) <= LastActivation(host, w, h + [e], f))
            && out == [IsActiveMediaApp(f == host.current)])
  {
    var h' := h + [e];
    assert h'[..|h'| - 1] == h;
    FrontIsMostRecentlyActivated(host, w, h');
    var apps := Replay(host, w, h').mediaApps;
    if apps != [] {
      var f := apps[0];
      assert Step(host, Replay(host, w, h), e).1 == [IsActiveMediaApp(f == host.current)];
    }
  }

  /** A statically whitelisted player other than this process launches,
      activates and terminates: the launch is reported once, the activation
      reports that this process is not the active media app, and the
      termination reports nothing because no media app is left. */
  lemma PlayerLifecycle(host: Host, player: App)
    requires player.bundleId.Some? && player.bundleId.value in KnownMediaApps
    requires player != host.current
    ensures var (w1, out1) := Step(host, Initial, Launched(player));
      var (w2, out2) := Step(host, w1, Activated(player));
      var (w3, out3) := Step(host, w2, Terminated(player));
      && out1 == [WhitelistedAppStarted]
      && out2 == [IsActiveMediaApp(false)]
      && out3 == []
      && w3.mediaApps == []
  {
  }
}

=== FILE: application_watcher.dfy ===
/** The activation tracker: the most-recent-first list of running whitelisted
    applications, the static and dynamic whitelists, and the announce/reply
    handshake with other processes using the library. Workspace and distributed
    notifications are inputs; delegate calls and posted notifications are outputs. */
module MediaApplicationWatcher {
  import opened Wrappers
  import opened Seqs

  type BundleId = string

  /** A running process. Two values are equal exactly when they denote the same
      process, standing in for `NSRunningApplication` equality. */
  datatype App = App(pid: nat, bundleId: Option<BundleId>)

  /** Facts about this process: its running application and its main bundle's identifier. */
  datatype Host = Host(current: App, ownBundleId: Option<BundleId>)

  /** The watcher's mutable state. */
  datatype Watcher = Watcher(mediaApps: seq<App>, dynamicWhitelist: set<BundleId>)

  /** Notifications the watcher observes. The distributed ones carry the
      sender's bundle identifier, `None` when the object is not a string. */
  datatype Notification =
    | Launched(app: App)
    | Activated(app: App)
    | Terminated(app: App)
    | DidStart(sender: Option<BundleId>)
    | Reply(sender: Option<BundleId>)

  /** Delegate calls and distributed notifications the watcher emits. */
  datatype Output =
    | IsActiveMediaApp(active: bool)
    | WhitelistedAppStarted
    | PostDidStart(sender: Option<BundleId>)
    | PostReply(sender: Option<BundleId>)

  /** `init()`: no media apps, nothing learned from peers. */
  const Initial: Watcher := Watcher([], {})

  /** The watcher starts valid: no media apps and nothing learned from peers. */
  lemma InitialWatcher(host: Host)
    ensures Initial.mediaApps == [] && Initial.dynamicWhitelist == {}
    ensures Valid(host, Initial)
  {
  }

  /** Bundle identifiers of media applications known in advance. */
  const KnownMediaApps: set<BundleId> := {
      "at.justp.Theremin",
      "co.rackit.mate",
      "com.Timenut.SongKey",
      "com.apple.Aperture",
      "com.apple.QuickTimePlayerX",
      "com.apple.iPhoto",
      "com.apple.iTunes",
      "com.apple.iWork.Keynote",
      "com.apple.quicktimeplayer",
      "com.beardedspice.BeardedSpice",
      "com.beatport.BeatportPro",
      "com.bitcartel.pandorajam",
      "com.ilabs.PandorasHelper",
      "com.jriver.MediaCenter18",
      "com.jriver.MediaCenter19",
      "com.jriver.MediaCenter20",
      "com.macromedia.fireworks",
      "com.mahasoftware.pandabar",
      "com.netease.163music",
      "com.plexsquared.Plex",
      "com.plug.Plug",
      "com.plug.Plug2",
      "com.soundcloud.desktop",
      "com.spotify.client",
      "com.ttitt.b-music",
      "fm.last.Last.fm",
      "fm.last.Scrobbler",
      "org.clementine-player.clementine",
      "org.niltsh.MPlayerX",
      "org.quodlibet.quodlibet",
      "org.videolan.vlc",
      "ru.ya.themblsha.YandexMusic"
    }

  /** `whitelistedApplicationIdentifiers`: the known media applications plus
      this process's own bundle identifier, when it has one. */
  function WhitelistedApplicationIdentifiers(host: Host): (ids: set<BundleId>)
    ensures KnownMediaApps <= ids
    ensures host.ownBundleId.Some? ==> host.ownBundleId.value in ids
    ensures forall id :: id in ids && id !in KnownMediaApps ==> host.ownBundleId == Some(id)
  {
    match host.ownBundleId
    case Some(own) => KnownMediaApps + {own}
    case None => KnownMediaApps
  }

  /** `inStaticWhitelist`: the application has a bundle identifier and it is whitelisted statically. */
  predicate InStaticWhitelist(host: Host, app: App) {
    app.bundleId.Some? && app.bundleId.value in WhitelistedApplicationIdentifiers(host)
  }

  /** `inDynamicWhitelist`: the application has a bundle identifier learned from a peer. */
  predicate InDynamicWhitelist(w: Watcher, app: App) {
    app.bundleId.Some? && app.bundleId.value in w.dynamicWhitelist
  }

  /** `whitelisted`: in either whitelist. */
  predicate Whitelisted(host: Host, w: Watcher, app: App) {
    InStaticWhitelist(host, app) || InDynamicWhitelist(w, app)
  }

  /** An application is whitelisted exactly when it has a bundle identifier that
      is a known media application, this process's own, or learned from a peer. */
  lemma WhitelistedCharacterised(host: Host, w: Watcher, app: App)
    ensures Whitelisted(host, w, app) <==>
      app.bundleId.Some? &&
      (app.bundleId.value in KnownMediaApps || Some(app.bundleId.value) == host.ownBundleId
       || app.bundleId.value in w.dynamicWhitelist)
  {
  }

  /** `updateKeyInterceptStatus`: with no media apps say nothing; otherwise tell
      the delegate whether the front app is this process. */
  function UpdateKeyInterceptStatus(host: Host, mediaApps: seq<App>): (out: seq<Output>)
    ensures |out| <= 1
    ensures out == [] <==> mediaApps == []
    ensures out != [] ==> out[0] == IsActiveMediaApp(mediaApps[0] == host.current)
  {
    if |mediaApps| == 0 then [] else [IsActiveMediaApp(mediaApps[0] == host.current)]
  }

  /** `applicationLaunched`: a statically whitelisted application other than
      this one starting is reported to the delegate; the state never changes. */
  function ApplicationLaunched(host: Host, w: Watcher, app: App): (r: (Watcher, seq<Output>))
    ensures r.0 == w
    ensures r.1 == [WhitelistedAppStarted] <==> InStaticWhitelist(host, app) && app != host.current
    ensures r.1 == [] <==> !(InStaticWhitelist(host, app) && app != host.current)
    ensures app.bundleId.None? ==> r.1 == []
  {
    if InStaticWhitelist(host, app) && app != host.current then (w, [WhitelistedAppStarted]) else (w, [])
  }

  /** `applicationActivated`: a whitelisted application moves to the front of the
      list (old copies removed, the rest kept in order) and the status is
      re-emitted; any other application is ignored. */
  function ApplicationActivated(host: Host, w: Watcher, app: App): (r: (Watcher, seq<Output>))
    ensures !Whitelisted(host, w, app) ==> r == (w, [])
    ensures Whitelisted(host, w, app) ==>
      && |r.0.mediaApps| >= 1
      && r.0.mediaApps[0] == app
      && Count(r.0.mediaApps, app) == 1
      && r.0.mediaApps[1..] == Remove(w.mediaApps, app)
      && IsSubseq(r.0.mediaApps[1..], w.mediaApps)
      && r.0.dynamicWhitelist == w.dynamicWhitelist
      && r.1 == [IsActiveMediaApp(app == host.current)]
  {
    if !Whitelisted(host, w, app) then (w, [])
    else
      var apps := [app] + Remove(w.mediaApps, app);
      assert apps[1..] == Remove(w.mediaApps, app);
      assert Count(apps, app) == 1 + Count(Remove(w.mediaApps, app), app);
      (w.(mediaApps := apps), UpdateKeyInterceptStatus(host, apps))
  }

  /** `applicationTerminated`: every entry for the application is removed, the
      rest kept in order, and the status is re-emitted unless the list is empty. */
  function ApplicationTerminated(host: Host, w: Watcher, app: App): (r: (Watcher, seq<Output>))
    ensures r.0.mediaApps == Remove(w.mediaApps, app)
    ensures app !in r.0.mediaApps
    ensures IsSubseq(r.0.mediaApps, w.mediaApps)
    ensures app !in w.mediaApps ==> r.0.mediaApps == w.mediaApps
    ensures r.0.dynamicWhitelist == w.dynamicWhitelist
    ensures r.1 == [] <==> r.0.mediaApps == []
    ensures r.1 != [] ==> r.1 == [IsActiveMediaApp(r.0.mediaApps[0] == host.current)]
  {
    var apps := Remove(w.mediaApps, app);
    (w.(mediaApps := apps), UpdateKeyInterceptStatus(host, apps))
  }

  /** Receiving another process's start announcement: learn its identifier and
      reply with this process's own. Announcements without a string identifier,
      or carrying this process's own, are ignored. */
  function ReceiveDidStart(host: Host, w: Watcher, sender: Option<BundleId>): (r: (Watcher, seq<Output>))
    ensures sender.None? || sender == host.ownBundleId ==> r == (w, [])
    ensures sender.Some? && sender != host.ownBundleId ==>
      && r.0 == w.(dynamicWhitelist := w.dynamicWhitelist + {sender.value})
      && r.1 == [PostReply(host.ownBundleId)]
  {
    match sender
    case None => (w, [])
    case Some(other) =>
      if Some(other) == host.ownBundleId then (w, [])
      else (w.(dynamicWhitelist := w.dynamicWhitelist + {other}), [PostReply(host.ownBundleId)])
  }

  /** Receiving a reply: learn the sender's identifier and post nothing, so that
      a reply never causes another reply. */
  function ReceiveReply(host: Host, w: Watcher, sender: Option<BundleId>): (r: (Watcher, seq<Output>))
    ensures r.1 == []
    ensures sender.None? || sender == host.ownBundleId ==> r.0 == w
    ensures sender.Some? && sender != host.ownBundleId ==>
      r.0 == w.(dynamicWhitelist := w.dynamicWhitelist + {sender.value})
  {
    match sender
    case None => (w, [])
    case Some(other) =>
      if Some(other) == host.ownBundleId then (w, [])
      else (w.(dynamicWhitelist := w.dynamicWhitelist + {other}), [])
  }

  /** `setupDistributedNotifications`: announce this process to its peers. */
  function Start(host: Host, w: Watcher): (r: (Watcher, seq<Output>))
    ensures r.0 == w
    ensures r.1 == [PostDidStart(host.ownBundleId)]
  {
    (w, [PostDidStart(host.ownBundleId)])
  }

  /** One notification delivered to the watcher. */
  function Step(host: Host, w: Watcher, n: Notification): (r: (Watcher, seq<Output>))
  {
    match n
    case Launched(app) => ApplicationLaunched(host, w, app)
    case Activated(app) => ApplicationActivated(host, w, app)
    case Terminated(app) => ApplicationTerminated(host, w, app)
    case DidStart(sender) => ReceiveDidStart(host, w, sender)
    case Reply(sender) => ReceiveReply(host, w, sender)
  }

  /** The list holds no process twice, and only whitelisted ones. */
  predicate Valid(host: Host, w: Watcher) {
    && NoDuplicates(w.mediaApps)
    && forall i :: 0 <= i < |w.mediaApps| ==> Whitelisted(host, w, w.mediaApps[i])
  }

  /** Activation keeps the list valid. */
  lemma ActivatedPreservesValid(host: Host, w: Watcher, app: App)
    requires Valid(host, w)
    ensures Valid(host, ApplicationActivated(host, w, app).0)
  {
    if Whitelisted(host, w, app) {
      var w' := ApplicationActivated(host, w, app).0;
      var rest := Remove(w.mediaApps, app);
      SubseqNoDuplicates(rest, w.mediaApps);
      SubseqMembers(rest, w.mediaApps);
      assert w'.mediaApps == [app] + rest;
      forall i, j | 0 <= i < j < |w'.mediaApps| ensures w'.mediaApps[i] != w'.mediaApps[j] {
        assert w'.mediaApps[j] == rest[j - 1];
        if i > 0 {
          assert w'.mediaApps[i] == rest[i - 1];
        }
      }
      forall i | 0 <= i < |w'.mediaApps| ensures Whitelisted(host, w', w'.mediaApps[i]) {
        if i > 0 {
          assert w'.mediaApps[i] == rest[i - 1];
        }
      }
    }
  }

  /** Termination keeps the list valid. */
  lemma TerminatedPreservesValid(host: Host, w: Watcher, app: App)
    requires Valid(host, w)
    ensures Valid(host, ApplicationTerminated(host, w, app).0)
  {
    var w' := ApplicationTerminated(host, w, app).0;
    SubseqNoDuplicates(w'.mediaApps, w.mediaApps);
    SubseqMembers(w'.mediaApps, w.mediaApps);
  }

  /** Every notification keeps the list valid, only ever adds to the dynamic
      whitelist, and emits at most one delegate call or post. */
  lemma StepPreservesValid(host: Host, w: Watcher, n: Notification)
    requires Valid(host, w)
    ensures Valid(host, Step(host, w, n).0)
    ensures w.dynamicWhitelist <= Step(host, w, n).0.dynamicWhitelist
    ensures |Step(host, w, n).1| <= 1
  {
    match n
    case Activated(app) => ActivatedPreservesValid(host, w, app);
    case Terminated(app) => TerminatedPreservesValid(host, w, app);
    case DidStart(_) =>
    case Reply(_) =>
    case Launched(_) =>
  }
}

=== FILE: key_decoder.dfy ===
/** Decoding of the bit-packed payload of a system-defined key event.
    `data1` is the Swift `Int` (64-bit, two's complement) carried by `NSEvent.data1`;
    its bits 16..31 hold the keycode and bits 0..15 the key flags. */
module KeyDecoder {

  type Keycode = bv16
  type KeyFlags = bv16

  /** The event subtype that marks a hardware-key event. */
  const KeyEventSubtype: int := 8

  /** High byte of the flags on a key press. */
  const KeyDownState: bv16 := 0x0a

  /** A decoded key event. */
  datatype KeyEvent = KeyEvent(keycode: Keycode, keyFlags: KeyFlags, keyPressed: bool, keyRepeat: bool)

  /** The IOKit key-type constants for the five media keys and the event-type
      number of system-defined events. Only their distinctness matters. */
  datatype KeyCodes = KeyCodes(play: Keycode, next: Keycode, previous: Keycode,
                               fast: Keycode, rewind: Keycode, sysDefined: nat)
  {
    /** The five media keycodes, in the order the media-key check lists them. */
    function MediaKeycodes(): seq<Keycode> {
      [play, previous, next, fast, rewind]
    }

    /** The five media keycodes are pairwise different. */
    predicate Distinct() {
      && play != next && play != previous && play != fast && play != rewind
      && next != previous && next != fast && next != rewind
      && previous != fast && previous != rewind
      && fast != rewind
    }
  }

  /** The keycode field, `(data1 & 0xffff0000) >> 16`. */
  function ExtractKeyCode(data1: bv64): (k: Keycode)
    ensures k == ((data1 >> 16) % 0x1_0000) as bv16
  {
    ((data1 & 0xffff_0000) >> 16) as bv16
  }

  /** The flags field, `data1 & 0x0000ffff`. */
  function ExtractKeyFlags(data1: bv64): (f: KeyFlags)
    ensures f as bv64 == data1 % 0x1_0000
  {
    (data1 & 0x0000_ffff) as bv16
  }

  /** Whether the flags say the key went down: their high byte is `0x0a`. */
  function IsPressed(flags: KeyFlags): (b: bool)
    ensures b <==> flags / 0x100 == KeyDownState
  {
    ((flags & 0xff00) >> 8) == 0x0a
  }

  /** Whether the flags mark an auto-repeat: their lowest bit is set. */
  function IsRepeat(flags: KeyFlags): (b: bool)
    ensures b <==> flags % 2 == 1
  {
    (flags & 0x1) == 0x1
  }

  /** Decodes `data1` into a key event. */
  function ToKeyEvent(data1: bv64): (e: KeyEvent)
    ensures e.keycode == ExtractKeyCode(data1)
    ensures e.keyFlags as bv64 == data1 % 0x1_0000
    ensures e.keyPressed <==> (data1 >> 8) % 0x100 == 0x0a
    ensures e.keyRepeat <==> data1 % 2 == 1
  {
    var flags := ExtractKeyFlags(data1);
    KeyEvent(ExtractKeyCode(data1), flags, IsPressed(flags), IsRepeat(flags))
  }

  /** Packs a keycode and flags the way the system lays them out in `data1`. */
  function Pack(keycode: Keycode, flags: KeyFlags): (data1: bv64)
    ensures data1 == (keycode as bv64) * 0x1_0000 + flags as bv64
  {
    ((keycode as bv64) << 16) | (flags as bv64)
  }

  /** Flags for a press or release, with or without repeat. The decoder reads
      a press from a high byte of `0x0a` and a release from any other high
      byte; `0x0b` stands for the release byte here. */
  function EncodeFlags(pressed: bool, repeat: bool): (flags: KeyFlags)
    ensures flags / 0x100 == (if pressed then 0x0a else 0x0b)
    ensures flags % 2 == (if repeat then 1 else 0)
  {
    (if pressed then 0x0a00 else 0x0b00) | (if repeat then 0x1 else 0x0)
  }

  /** Decoding a packed payload gives back the keycode and flags that went in. */
  lemma PackRoundTrip(keycode: Keycode, flags: KeyFlags)
    ensures ExtractKeyCode(Pack(keycode, flags)) == keycode
    ensures ExtractKeyFlags(Pack(keycode, flags)) == flags
  {
  }

  /** Decoding a payload built from a keycode, a press state and a repeat bit
      recovers all three. */
  lemma EventRoundTrip(keycode: Keycode, pressed: bool, repeat: bool)
    ensures var e := ToKeyEvent(Pack(keycode, EncodeFlags(pressed, repeat)));
      e.keycode == keycode && e.keyPressed == pressed && e.keyRepeat == repeat
  {
    PackRoundTrip(keycode, EncodeFlags(pressed, repeat));
  }

  /** Packing is the inverse of decoding: every payload whose upper 32 bits are
      clear is the packing of its own keycode and flags. */
  lemma UnpackRoundTrip(data1: bv64)
    requires data1 < 0x1_0000_0000
    ensures Pack(ExtractKeyCode(data1), ExtractKeyFlags(data1)) == data1
  {
  }

  /** The subtype check of the hardware-key family. */
  function IsKeyEvent(subtype: int): bool
  {
    subtype == KeyEventSubtype
  }

  /** A media-key event: hardware-key subtype and one of the five media keycodes. */
  function IsMediaKeyEvent(codes: KeyCodes, subtype: int, data1: bv64): (b: bool)
    ensures b <==> subtype == KeyEventSubtype
                   && ExtractKeyCode(data1) in {codes.play, codes.next, codes.previous, codes.fast, codes.rewind}
  {
    var keycode := ExtractKeyCode(data1);
    IsKeyEvent(subtype) && keycode in codes.MediaKeycodes()
  }
}

=== FILE: media_key_tap.dfy ===
/** The arbitration facade: maps keycodes to media keys, filters by press mode,
    and owns the intercept flag whose changes toggle the tap. */
module MediaKeyTap {
  import opened Wrappers
  import opened KeyDecoder
  import MediaKeyTapInternals

  datatype MediaKey = PlayPause | Previous | Next | Rewind | FastForward

  datatype KeyPressMode = KeyDown | KeyUp | KeyDownAndUp

  /** The state of one `MediaKeyTap` instance. */
  datatype Tap = Tap(keyPressMode: KeyPressMode, interceptMediaKeys: bool)

  /** Calls the facade makes on its collaborators: the tap's `enableTap` and the
      host delegate's `handleMediaKey`. */
  datatype FacadeCall = EnableTapCall(on: bool) | HandleMediaKey(key: MediaKey, event: KeyEvent)

  /** `init(delegate:on:)`: the press mode defaults to key-down and interception starts off. */
  function Init(mode: KeyPressMode := KeyDown): (t: Tap)
    ensures !t.interceptMediaKeys
    ensures t.keyPressMode == mode
  {
    Tap(mode, false)
  }

  /** A tap created without a mode reacts to key-down and is not intercepting. */
  lemma InitDefaults()
    ensures Init().keyPressMode == KeyDown
    ensures !Init().interceptMediaKeys
  {
  }

  /** `keycodeToMediaKey`: the first media-key constant equal to the keycode
      decides the key; any other keycode has none. */
  function KeycodeToMediaKey(codes: KeyCodes, keycode: Keycode): (k: Option<MediaKey>)
    ensures k.Some? <==> keycode in codes.MediaKeycodes()
    ensures k.Some? ==> keycode == MediaKeyToKeycode(codes, k.value)
  {
    if keycode == codes.play then Some(PlayPause)
    else if keycode == codes.previous then Some(Previous)
    else if keycode == codes.next then Some(Next)
    else if keycode == codes.rewind then Some(Rewind)
    else if keycode == codes.fast then Some(FastForward)
    else None
  }

  /** The keycode of each media key. */
  function MediaKeyToKeycode(codes: KeyCodes, key: MediaKey): Keycode {
    match key
    case PlayPause => codes.play
    case Previous => codes.previous
    case Next => codes.next
    case Rewind => codes.rewind
    case FastForward => codes.fast
  }

  /** With distinct constants every media key is recognised from its own keycode,
      so the mapping is a bijection between the five keycodes and the five keys. */
  lemma KeycodeRoundTrip(codes: KeyCodes, key: MediaKey)
    requires codes.Distinct()
    ensures KeycodeToMediaKey(codes, MediaKeyToKeycode(codes, key)) == Some(key)
  {
  }

  /** Two keycodes that map to the same media key are equal. */
  lemma KeycodeToMediaKeyInjective(codes: KeyCodes, a: Keycode, b: Keycode)
    requires KeycodeToMediaKey(codes, a).Some?
    requires KeycodeToMediaKey(codes, a) == KeycodeToMediaKey(codes, b)
    ensures a == b
  {
  }

  /** `shouldNotifyDelegate`: key-down mode passes presses, key-up mode passes
      releases, and the combined mode passes both. */
  function ShouldNotifyDelegate(mode: KeyPressMode, event: KeyEvent): (b: bool)
    ensures mode == KeyDownAndUp ==> b
    ensures mode != KeyDownAndUp ==> (b <==> (mode == KeyDown) == event.keyPressed)
  {
    match mode
    case KeyDown => event.keyPressed
    case KeyUp => !event.keyPressed
    case KeyDownAndUp => true
  }

  /** For every event exactly one of the key-down and key-up modes notifies, and
      the combined mode notifies whenever either does. */
  lemma PressModesPartition(event: KeyEvent)
    ensures ShouldNotifyDelegate(KeyDown, event) != ShouldNotifyDelegate(KeyUp, event)
    ensures ShouldNotifyDelegate(KeyDownAndUp, event)
  {
  }

  /** `handleKeyEvent`: call the host delegate once when the keycode is a media
      key and the press mode lets the event through, and not at all otherwise. */
  function HandleKeyEvent(codes: KeyCodes, tap: Tap, event: KeyEvent): (calls: seq<FacadeCall>)
    ensures |calls| <= 1
    ensures calls != [] <==> event.keycode in codes.MediaKeycodes() && ShouldNotifyDelegate(tap.keyPressMode, event)
    ensures calls != [] ==> calls[0].HandleMediaKey? && calls[0].event == event
                            && MediaKeyToKeycode(codes, calls[0].key) == event.keycode
  {
    match KeycodeToMediaKey(codes, event.keycode)
    case None => []
    case Some(key) => if ShouldNotifyDelegate(tap.keyPressMode, event) then [HandleMediaKey(key, event)] else []
  }

  /** Assigning `interceptMediaKeys`: its `didSet` calls `enableTap` with the new
      value only when the value actually changed. */
  function SetInterceptMediaKeys(tap: Tap, value: bool): (r: (Tap, seq<FacadeCall>))
    ensures r.0 == tap.(interceptMediaKeys := value)
    ensures |r.1| <= 1
    ensures r.1 != [] <==> value != tap.interceptMediaKeys
    ensures r.1 != [] ==> r.1[0] == EnableTapCall(value)
  {
    (tap.(interceptMediaKeys := value), if value != tap.interceptMediaKeys then [EnableTapCall(value)] else [])
  }

  /** The watcher's `updateIsActiveMediaApp` assigns the flag. */
  function UpdateIsActiveMediaApp(tap: Tap, active: bool): (r: (Tap, seq<FacadeCall>))
    ensures r.0.interceptMediaKeys == active && r.0.keyPressMode == tap.keyPressMode
    ensures r.1 == (if active == tap.interceptMediaKeys then [] else [EnableTapCall(active)])
  {
    SetInterceptMediaKeys(tap, active)
  }

  /** The tap's `updateInterceptMediaKeys` assigns the flag exactly as the
      watcher's callback does. */
  function UpdateInterceptMediaKeys(tap: Tap, intercept: bool): (r: (Tap, seq<FacadeCall>))
    ensures r == UpdateIsActiveMediaApp(tap, intercept)
    ensures IsInterceptingMediaKeys(r.0) == intercept
  {
    SetInterceptMediaKeys(tap, intercept)
  }

  /** `isInterceptingMediaKeys` reports the flag last assigned. */
  function IsInterceptingMediaKeys(tap: Tap): bool {
    tap.interceptMediaKeys
  }

  /** Whichever delegate callback assigns the flag, `isInterceptingMediaKeys`
      afterwards reports the assigned value. */
  lemma InterceptReadsBack(tap: Tap, value: bool)
    ensures IsInterceptingMediaKeys(UpdateIsActiveMediaApp(tap, value).0) == value
    ensures IsInterceptingMediaKeys(UpdateInterceptMediaKeys(tap, value).0) == value
    ensures UpdateIsActiveMediaApp(tap, value) == UpdateInterceptMediaKeys(tap, value)
  {
  }

  /** Assigning the same value twice: the second assignment changes nothing and calls nothing. */
  lemma SetInterceptIdempotent(tap: Tap, value: bool)
    ensures var (t1, _) := SetInterceptMediaKeys(tap, value);
      SetInterceptMediaKeys(t1, value) == (t1, []) && IsInterceptingMediaKeys(t1) == value
  {
  }

  /** A series of assignments, with every call made, in order. */
  function AssignAll(tap: Tap, values: seq<bool>): (r: (Tap, seq<FacadeCall>))
    decreases |values|
  {
    if values == [] then (tap, [])
    else
      var (t1, c1) := SetInterceptMediaKeys(tap, values[0]);
      var (t2, c2) := AssignAll(t1, values[1..]);
      (t2, c1 + c2)
  }

  /** How many assignments in a series change the value they overwrite. */
  function Changes(previous: bool, values: seq<bool>): nat
    decreases |values|
  {
    if values == [] then 0
    else (if values[0] != previous then 1 else 0) + Changes(values[0], values[1..])
  }

  /** Over any series of assignments, `enableTap` is called once per change of
      value, the calls alternate starting from the opposite of the initial value,
      and the flag ends at the last value assigned. */
  lemma {:induction false} AssignAllCountsChanges(tap: Tap, values: seq<bool>)
    ensures var (t, calls) := AssignAll(tap, values);
      && |calls| == Changes(tap.interceptMediaKeys, values)
      && (forall i :: 0 <= i < |calls| ==>
            calls[i] == EnableTapCall(if i % 2 == 0 then !tap.interceptMediaKeys else tap.interceptMediaKeys))
      && t.interceptMediaKeys == (if values == [] then tap.interceptMediaKeys else values[|values| - 1])
      && t.keyPressMode == tap.keyPressMode
    decreases |values|
  {
    if values != [] {
      var (t1, c1) := SetInterceptMediaKeys(tap, values[0]);
      AssignAllCountsChanges(t1, values[1..]);
      var (t2, c2) := AssignAll(t1, values[1..]);
      if values[1..] != [] {
        assert values[1..][|values[1..]| - 1] == values[|values| - 1];
      }
      if c1 != [] {
        forall i | 1 <= i < |c1 + c2|
          ensures (c1 + c2)[i] == EnableTapCall(if i % 2 == 0 then !tap.interceptMediaKeys else tap.interceptMediaKeys)
        {
          assert (c1 + c2)[i] == c2[i - 1];
        }
      }
    }
  }

  /** End to end: an event the tap swallows carries a media keycode, so the
      facade calls the host delegate for it exactly when the press mode allows. */
  lemma SwallowedEventsReachHost(codes: KeyCodes, tap: Tap, t: MediaKeyTapInternals.CGEventType,
                                 event: MediaKeyTapInternals.CGEvent, portHeld: bool)
    requires MediaKeyTapInternals.EventTapCallback(codes, t, event, portHeld,
                                                   Some(IsInterceptingMediaKeys(tap))).passed.None?
    ensures var r := MediaKeyTapInternals.EventTapCallback(codes, t, event, portHeld, Some(IsInterceptingMediaKeys(tap)));
      && |r.dispatched| == 1
      && tap.interceptMediaKeys
      && (|HandleKeyEvent(codes, tap, r.dispatched[0])| == 1 <==> ShouldNotifyDelegate(tap.keyPressMode, r.dispatched[0]))
  {
  }

  /** The tap side of `start()`: the handles afterwards, the steps taken and the
      error thrown, if any. */
  datatype Started = Started(tap: Tap, result: Outcome<MediaKeyTapInternals.EventTapError>,
                             handles: MediaKeyTapInternals.TapHandles, steps: seq<MediaKeyTapInternals.TapStep>)

  /** `start()`, tap side: `startWatchingMediaKeys` first asks this facade to
      intercept, an assignment of the flag whose `enableTap` acts on the
      handles held at that moment, and then creates the tap. The flag is set
      even when creating the tap then fails. */
  function StartWatching(tap: Tap, h: MediaKeyTapInternals.TapHandles, portCreated: bool, sourceCreated: bool): (r: Started)
    ensures r.tap.interceptMediaKeys && r.tap.keyPressMode == tap.keyPressMode
    ensures r.result == MediaKeyTapInternals.StartKeyEventTap(h, false, true, portCreated, sourceCreated).result
    ensures r.handles == MediaKeyTapInternals.StartKeyEventTap(h, false, true, portCreated, sourceCreated).handles
    // The next three clauses follow from the full trace below; they are
    // restated in the form callers use.
    ensures |r.steps| >= 2 && r.steps[0] == MediaKeyTapInternals.RequestIntercept
    ensures MediaKeyTapInternals.CreatePort in r.steps
    ensures MediaKeyTapInternals.PerformEnable(true) in r.steps <==> !tap.interceptMediaKeys && h.port && h.runLoop
    ensures r.steps == [MediaKeyTapInternals.RequestIntercept]
                       + (if !tap.interceptMediaKeys then MediaKeyTapInternals.EnableTap(h, true) else [])
                       + MediaKeyTapInternals.StartKeyEventTap(h, false, true, portCreated, sourceCreated).steps[1..]
  {
    var start := MediaKeyTapInternals.StartKeyEventTap(h, false, true, portCreated, sourceCreated);
    var (t1, calls) := UpdateInterceptMediaKeys(tap, true);
    var enable := if calls != [] then MediaKeyTapInternals.EnableTap(h, true) else [];
    assert MediaKeyTapInternals.PerformEnable(true) !in start.steps[1..];
    Started(t1, start.result, start.handles, [MediaKeyTapInternals.RequestIntercept] + enable + start.steps[1..])
  }

  /** Starting a fresh instance: no handle is held yet, so the request to
      intercept sets the flag without touching the tap, and the tap is created
      next. */
  lemma FreshStart(mode: KeyPressMode, portCreated: bool, sourceCreated: bool)
    ensures var r := StartWatching(Init(mode), MediaKeyTapInternals.TapHandles(false, false, false), portCreated, sourceCreated);
      && r.tap == Tap(mode, true)
      && r.steps[..2] == [MediaKeyTapInternals.RequestIntercept, MediaKeyTapInternals.CreatePort]
      && (r.result == Pass <==> portCreated && sourceCreated)
  {
  }
}

=== FILE: peer_network.dfy ===
/** Several processes using the library, connected by the distributed
    notification centre: every posted message reaches every process, the
    sender included. Replies never cause further messages, so any exchange
    dies out. */
module PeerNetwork {
  import opened Wrappers
  import opened MediaApplicationWatcher

  /** One process using the library. */
  datatype Peer = Peer(host: Host, watcher: Watcher)

  /** A distributed notification in flight. */
  datatype Message = Announce(sender: Option<BundleId>) | Answer(sender: Option<BundleId>)

  /** How a message is observed by a receiving watcher. */
  function Receipt(m: Message): Notification {
    match m
    case Announce(s) => DidStart(s)
    case Answer(s) => Reply(s)
  }

  /** The messages among a watcher's outputs; delegate calls stay local. */
  function Posts(out: seq<Output>): (ms: seq<Message>)
    ensures |ms| <= |out|
    decreases |out|
  {
    if out == [] then []
    else
      var rest := Posts(out[1..]);
      match out[0]
      case PostDidStart(s) => [Announce(s)] + rest
      case PostReply(s) => [Answer(s)] + rest
      case _ => rest
  }

  /** Number of announcements in a queue. */
  function Announcements(q: seq<Message>): nat
    ensures Announcements(q) <= |q|
    decreases |q|
  {
    if q == [] then 0 else (if q[0].Announce? then 1 else 0) + Announcements(q[1..])
  }

  lemma {:induction false} AnnouncementsAppend(a: seq<Message>, b: seq<Message>)
    ensures Announcements(a + b) == Announcements(a) + Announcements(b)
    decreases |a|
  {
    if a == [] {
      assert a + b == b;
    } else {
      assert (a + b)[0] == a[0];
      assert (a + b)[1..] == a[1..] + b;
      AnnouncementsAppend(a[1..], b);
    }
  }

  /** One peer receives a message: its watcher steps, and the posts among its
      outputs go back on the channel. It posts a reply with its own identifier
      to an announcement from someone else, and nothing in every other case;
      it learns the sender's identifier when that is not its own, and its
      media list is untouched. */
  function Receive(peer: Peer, m: Message): (r: (Peer, seq<Message>))
    ensures r.0.host == peer.host
    ensures r.0.watcher.mediaApps == peer.watcher.mediaApps
    ensures r.0.watcher.dynamicWhitelist == peer.watcher.dynamicWhitelist
              + (if m.sender.Some? && m.sender != peer.host.ownBundleId then {m.sender.value} else {})
    ensures r.1 == if m.Announce? && m.sender.Some? && m.sender != peer.host.ownBundleId
                   then [Answer(peer.host.ownBundleId)] else []
  {
    var (w, out) := Step(peer.host, peer.watcher, Receipt(m));
    if out != [] then
      assert out[1..] == [];
      (Peer(peer.host, w), Posts(out))
    else
      (Peer(peer.host, w), [])
  }

  /** Everything the peers post on receiving one message, in peer order. A
      reply makes nobody post; an announcement is answered by every peer whose
      identifier differs from the sender's, each posting at most one reply
      carrying its own identifier. */
  function Collect(peers: seq<Peer>, m: Message): (posted: seq<Message>)
    ensures m.Answer? ==> posted == []
    ensures Announcements(posted) == 0
    ensures |posted| <= |peers|
    ensures forall p :: p in posted ==> exists i :: 0 <= i < |peers| && p == Answer(peers[i].host.ownBundleId)
    ensures m.Announce? && m.sender.Some? ==>
      forall i :: 0 <= i < |peers| && m.sender != peers[i].host.ownBundleId ==> Answer(peers[i].host.ownBundleId) in posted
    decreases |peers|
  {
    if peers == [] then []
    else
      var mine := Receive(peers[0], m).1;
      var rest := Collect(peers[1..], m);
      AnnouncementsAppend(mine, rest);
      mine + rest
  }

  /** Broadcasts one message: every peer receives it, independently of the
      others, and the posts are collected. */
  function Deliver(peers: seq<Peer>, m: Message): (r: (seq<Peer>, seq<Message>))
    ensures |r.0| == |peers|
    ensures forall i :: 0 <= i < |peers| ==> r.0[i] == Receive(peers[i], m).0
    ensures r.1 == Collect(peers, m)
  {
    (seq(|peers|, i requires 0 <= i < |peers| => Receive(peers[i], m).0), Collect(peers, m))
  }

  /** Delivers messages until none is left, returning the final peers and the
      number of messages delivered. Termination is the absence of reply loops:
      each announcement is replaced by replies only, and a reply by nothing. */
  function Run(peers: seq<Peer>, queue: seq<Message>): (r: (seq<Peer>, nat))
    ensures |r.0| == |peers|
    ensures |queue| <= r.1 <= |queue| + Announcements(queue) * |peers|
    ensures forall i :: 0 <= i < |peers| ==>
      r.0[i].host == peers[i].host && peers[i].watcher.dynamicWhitelist <= r.0[i].watcher.dynamicWhitelist
    decreases Announcements(queue), |queue|
  {
    if queue == [] then (peers, 0)
    else
      var (next, posted) := Deliver(peers, queue[0]);
      var rest := queue[1..] + posted;
      RunMeasure(queue, posted);
      var (final, delivered) := Run(next, rest);
      assert delivered + 1 <= |queue| + Announcements(queue) * |peers| by {
        if queue[0].Announce? {
          MulSucc(Announcements(rest), |peers|);
        }
      }
      (final, delivered + 1)
  }

  lemma MulSucc(a: nat, b: nat)
    ensures (a + 1) * b == a * b + b
  {
  }

  /** The queue after delivering its head: one announcement fewer when the head
      was an announcement, otherwise one message shorter. */
  lemma RunMeasure(queue: seq<Message>, posted: seq<Message>)
    requires queue != []
    requires Announcements(posted) == 0
    requires queue[0].Answer? ==> posted == []
    ensures var rest := queue[1..] + posted;
      && (queue[0].Announce? ==> Announcements(rest) + 1 == Announcements(queue))
      && (queue[0].Answer? ==> Announcements(rest) == Announcements(queue) && |rest| + 1 == |queue|)
  {
    AnnouncementsAppend(queue[1..], posted);
  }

  /** Two processes with different identifiers: the first starts and announces
      itself, the second learns it and replies, the first learns the second from
      the reply, and the exchange ends after exactly these two messages. */
  lemma TwoPeerHandshake(a: Peer, b: Peer, idA: BundleId, idB: BundleId)
    requires a.host.ownBundleId == Some(idA) && b.host.ownBundleId == Some(idB)
    requires idA != idB
    ensures var (final, delivered) := Run([a, b], Posts(Start(a.host, a.watcher).1));
      && delivered == 2
      && idB in final[0].watcher.dynamicWhitelist
      && idA in final[1].watcher.dynamicWhitelist
  {
    assert Posts(Start(a.host, a.watcher).1) == [Announce(Some(idA))] by {
      assert Posts([PostDidStart(Some(idA))]) == [Announce(Some(idA))] + Posts([PostDidStart(Some(idA))][1..]);
      assert [PostDidStart(Some(idA))][1..] == [];
    }
    var m1 := Announce(Some(idA));
    var m2 := Answer(Some(idB));
    var p1 := AnnounceRound(a, b, idA, idB);
    var p2 := ReplyRound(p1[0], p1[1], idA, idB);
    assert [p1[0], p1[1]] == p1;
    assert Run(p2, []) == (p2, 0);
    assert [m1][1..] + [m2] == [m2];
    assert [m2][1..] + [] == [];
    assert Run(p1, [m2]) == (p2, 1);
  }

  /** First round of the handshake: the announcement reaches both peers; only
      the second learns something and replies. */
  lemma AnnounceRound(a: Peer, b: Peer, idA: BundleId, idB: BundleId) returns (p1: seq<Peer>)
    requires a.host.ownBundleId == Some(idA) && b.host.ownBundleId == Some(idB)
    requires idA != idB
    ensures Deliver([a, b], Announce(Some(idA))) == (p1, [Answer(Some(idB))])
    ensures |p1| == 2 && p1[0].host == a.host && p1[1].host == b.host
    ensures idA in p1[1].watcher.dynamicWhitelist
  {
    var m := Announce(Some(idA));
    p1 := Deliver([a, b], m).0;
    assert [a, b][1..] == [b] && [b][1..] == [];
    assert Collect([a, b], m) == [] + ([Answer(Some(idB))] + []);
    assert [] + ([Answer(Some(idB))] + []) == [Answer(Some(idB))];
  }

  /** Second round: the reply reaches both peers; only the first learns
      something, and nobody posts. */
  lemma ReplyRound(a: Peer, b: Peer, idA: BundleId, idB: BundleId) returns (p2: seq<Peer>)
    requires a.host.ownBundleId == Some(idA) && b.host.ownBundleId == Some(idB)
    requires idA != idB
    requires idA in b.watcher.dynamicWhitelist
    ensures Deliver([a, b], Answer(Some(idB))) == (p2, [])
    ensures |p2| == 2 && idB in p2[0].watcher.dynamicWhitelist && idA in p2[1].watcher.dynamicWhitelist
  {
    p2 := Deliver([a, b], Answer(Some(idB))).0;
  }
}

=== FILE: seqs.dfy ===
/** Sequence helpers used by the application list: filtering out one element,
    counting occurrences, subsequences and duplicate-freedom. */
module Seqs {

  /** Number of occurrences of `a` in `s`. */
  function Count<T(==)>(s: seq<T>, a: T): (n: nat)
    ensures n <= |s|
    ensures n == 0 <==> a !in s
  {
    if s == [] then 0
    else (if s[0] == a then 1 else 0) + Count(s[1..], a)
  }

  /** `r` can be obtained from `s` by deleting elements, keeping the order of the rest. */
  predicate IsSubseq<T(==)>(r: seq<T>, s: seq<T>)
    decreases |s|
  {
    if r == [] then true
    else if s == [] then false
    else if r[0] == s[0] then IsSubseq(r[1..], s[1..])
    else IsSubseq(r, s[1..])
  }

  /** No element occurs twice. */
  predicate NoDuplicates<T(==)>(s: seq<T>) {
    forall i, j :: 0 <= i < j < |s| ==> s[i] != s[j]
  }

  /** `s` with every occurrence of `a` deleted, the rest in its original order
      (Swift's `s.filter { $0 != a }`). */
  function Remove<T(==)>(s: seq<T>, a: T): (r: seq<T>)
    ensures a !in r
    ensures forall i :: 0 <= i < |r| ==> r[i] in s && r[i] != a
    ensures forall i :: 0 <= i < |s| && s[i] != a ==> s[i] in r
    ensures IsSubseq(r, s)
    ensures |r| + Count(s, a) == |s|
    ensures a !in s ==> r == s
  {
    if s == [] then []
    else if s[0] == a then Remove(s[1..], a)
    else [s[0]] + Remove(s[1..], a)
  }

  /** An element survives removal of `a` exactly when it was present and is not `a`. */
  lemma RemoveMembership<T>(s: seq<T>, a: T, x: T)
    ensures x in Remove(s, a) <==> x in s && x != a
  {
    var r := Remove(s, a);
    if x in s && x != a {
      var i :| 0 <= i < |s| && s[i] == x;
    }
    if x in r {
      var i :| 0 <= i < |r| && r[i] == x;
    }
  }

  /** Removing `a` leaves every other element's count unchanged. */
  lemma {:induction false} RemoveKeepsOthers<T>(s: seq<T>, a: T, x: T)
    requires x != a
    ensures Count(Remove(s, a), x) == Count(s, x)
  {
    if s != [] {
      RemoveKeepsOthers(s[1..], a, x);
      if s[0] != a {
        assert ([s[0]] + Remove(s[1..], a))[1..] == Remove(s[1..], a);
      }
    }
  }

  /** A property of every ordered pair survives passing to a subsequence. */
  lemma {:induction false} SubseqKeepsPairs<T>(r: seq<T>, s: seq<T>, R: (T, T) -> bool)
    requires IsSubseq(r, s)
    requires forall i, j :: 0 <= i < j < |s| ==> R(s[i], s[j])
    ensures forall i, j :: 0 <= i < j < |r| ==> R(r[i], r[j])
    decreases |s|
  {
    if r != [] && s != [] {
      assert forall i, j :: 0 <= i < j < |s[1..]| ==> R(s[1..][i], s[1..][j]) by {
        forall i, j | 0 <= i < j < |s[1..]| ensures R(s[1..][i], s[1..][j]) {
          assert s[1..][i] == s[i + 1] && s[1..][j] == s[j + 1];
        }
      }
      if r[0] == s[0] {
        SubseqKeepsPairs(r[1..], s[1..], R);
        forall i, j | 0 <= i < j < |r| ensures R(r[i], r[j]) {
          if i == 0 {
            SubseqMembers(r[1..], s[1..]);
            assert r[j] == r[1..][j - 1];
            assert r[j] in s[1..];
            var k :| 0 <= k < |s[1..]| && s[1..][k] == r[j];
            assert s[k + 1] == r[j];
          } else {
            assert r[i] == r[1..][i - 1] && r[j] == r[1..][j - 1];
          }
        }
      } else {
        SubseqKeepsPairs(r, s[1..], R);
      }
    }
  }

  /** Every element of a subsequence is an element of the sequence. */
  lemma {:induction false} SubseqMembers<T>(r: seq<T>, s: seq<T>)
    requires IsSubseq(r, s)
    ensures forall i :: 0 <= i < |r| ==> r[i] in s
    decreases |s|
  {
    if r != [] && s != [] {
      if r[0] == s[0] {
        SubseqMembers(r[1..], s[1..]);
        assert r == [r[0]] + r[1..];
      } else {
        SubseqMembers(r, s[1..]);
      }
    }
  }

  /** A subsequence of a duplicate-free sequence is duplicate-free. */
  lemma SubseqNoDuplicates<T>(r: seq<T>, s: seq<T>)
    requires IsSubseq(r, s)
    requires NoDuplicates(s)
    ensures NoDuplicates(r)
  {
    SubseqKeepsPairs(r, s, (x, y) => x != y);
  }

  /** In a duplicate-free sequence every member occurs exactly once. */
  lemma {:induction false} NoDuplicatesCount<T>(s: seq<T>, a: T)
    requires NoDuplicates(s)
    requires a in s
    ensures Count(s, a) == 1
  {
    assert NoDuplicates(s[1..]) by {
      forall i, j | 0 <= i < j < |s[1..]| ensures s[1..][i] != s[1..][j] {
        assert s[1..][i] == s[i + 1] && s[1..][j] == s[j + 1];
      }
    }
    if s[0] == a {
      assert a !in s[1..] by {
        forall k | 0 <= k < |s[1..]| ensures s[1..][k] != a {
          assert s[1..][k] == s[k + 1];
        }
      }
    } else {
      NoDuplicatesCount(s[1..], a);
    }
  }
}

=== FILE: tap_internals.dfy ===
/** The capture side of the library: the event-tap callback's pass/swallow
    decision and the start, stop, restart and enable sequences of the tap.
    The CoreGraphics and run-loop calls themselves are not modelled; each one
    becomes a step in an ordered trace, and whether the port or the run-loop
    source could be created is an input. */
module MediaKeyTapInternals {
  import opened Wrappers
  import opened KeyDecoder
  import opened Seqs

  datatype EventTapError = EventTapCreationFailure | RunLoopSourceCreationFailure

  /** The part of `NSEvent(cgEvent:)` the decision reads. */
  datatype NSEventView = NSEventView(subtype: int, data1: bv64)

  /** A raw event as handed to the tap: an opaque identity and its NSEvent view,
      `None` when the NSEvent conversion fails. */
  datatype CGEvent = CGEvent(id: nat, asNSEvent: Option<NSEventView>)

  /** The event type the tap callback receives. The two tap-disabled
      notifications are told apart from ordinary types by constructor. */
  datatype CGEventType = TapDisabledByTimeout | TapDisabledByUserInput | Ordinary(rawValue: nat)

  /** Result of `handleEvent`: the event to pass on (`None` swallows it) and the
      key events queued for the delegate on the main queue. */
  datatype Handled = Handled(passed: Option<CGEvent>, dispatched: seq<KeyEvent>)

  /** Result of the tap callback: as `Handled`, plus whether the tap was re-enabled. */
  datatype CallbackResult = CallbackResult(passed: Option<CGEvent>, reEnabledTap: bool, dispatched: seq<KeyEvent>)

  /** Which of the tap's optional handles currently hold a value. */
  datatype TapHandles = TapHandles(port: bool, source: bool, runLoop: bool)

  /** The externally visible steps of starting, stopping and toggling the tap. */
  datatype TapStep =
    | RequestIntercept          // delegate?.updateInterceptMediaKeys(true)
    | CreatePort                // CGEvent.tapCreate(...)
    | CreateSource              // CFMachPortCreateRunLoopSource(...)
    | SpawnRunLoop              // the dedicated queue starts CFRunLoopRun
    | InvalidateSource
    | StopRunLoop
    | InvalidatePort
    | PerformEnable(on: bool)   // CGEvent.tapEnable scheduled on the tap's run loop
    | WakeRunLoop

  /** The outcome of a start, stop or restart: the error thrown, if any, the
      handles afterwards and the steps taken, in order. */
  datatype TapRun = TapRun(result: Outcome<EventTapError>, handles: TapHandles, steps: seq<TapStep>)

  /** The condition under which `handleEvent` swallows an event. `intercepting`
      is the delegate's answer to `isInterceptingMediaKeys`, `None` without a delegate. */
  predicate Swallows(codes: KeyCodes, t: CGEventType, event: CGEvent, intercepting: Option<bool>) {
    && t == Ordinary(codes.sysDefined)
    && event.asNSEvent.Some?
    && IsMediaKeyEvent(codes, event.asNSEvent.value.subtype, event.asNSEvent.value.data1)
    && intercepting == Some(true)
  }

  /** `handleEvent`: swallow a media-key event of the system-defined type while
      the delegate intercepts, queueing its decoding for the delegate; pass any
      other event through untouched. */
  function HandleEvent(codes: KeyCodes, t: CGEventType, event: CGEvent, intercepting: Option<bool>): (r: Handled)
    ensures r.passed.None? <==> Swallows(codes, t, event, intercepting)
    ensures r.passed.Some? ==> r.passed == Some(event) && r.dispatched == []
    ensures r.passed.None? ==> r.dispatched == [ToKeyEvent(event.asNSEvent.value.data1)]
  {
    match event.asNSEvent
    case None => Handled(Some(event), [])
    case Some(ns) =>
      if t.Ordinary? && t.rawValue == codes.sysDefined
         && IsMediaKeyEvent(codes, ns.subtype, ns.data1)
         && intercepting.GetOr(false)
      then Handled(None, [ToKeyEvent(ns.data1)])
      else Handled(Some(event), [])
  }

  /** The tap callback: tap-disabled notifications are passed through (a timeout
      also re-enables the tap when a port is held); every other type goes to
      `handleEvent`. */
  function EventTapCallback(codes: KeyCodes, t: CGEventType, event: CGEvent, portHeld: bool,
                            intercepting: Option<bool>): (r: CallbackResult)
    ensures t == TapDisabledByTimeout ==> r == CallbackResult(Some(event), portHeld, [])
    ensures t == TapDisabledByUserInput ==> r == CallbackResult(Some(event), false, [])
    ensures r.reEnabledTap ==> t == TapDisabledByTimeout
    ensures r.passed.None? <==> Swallows(codes, t, event, intercepting)
    ensures |r.dispatched| <= 1
    ensures r.dispatched != [] <==> r.passed.None?
    ensures r.passed.Some? ==> r.passed == Some(event)
    ensures r.passed.None? ==> r.dispatched == [ToKeyEvent(event.asNSEvent.value.data1)]
  {
    match t
    case TapDisabledByTimeout => CallbackResult(Some(event), portHeld, [])
    case TapDisabledByUserInput => CallbackResult(Some(event), false, [])
    case Ordinary(_) =>
      var h := HandleEvent(codes, t, event, intercepting);
      CallbackResult(h.passed, false, h.dispatched)
  }

  /** `startKeyEventTapWithCallback`: unless restarting, ask the delegate to turn
      interception on; then create the port, then the run-loop source, then spawn
      the run loop, throwing at the first creation that fails. `portCreated` and
      `sourceCreated` say whether the system granted each one. */
  function StartKeyEventTap(h: TapHandles, restart: bool, hasDelegate: bool,
                            portCreated: bool, sourceCreated: bool): (r: TapRun)
    ensures IsSubseq(r.steps, [RequestIntercept, CreatePort, CreateSource, SpawnRunLoop])
    ensures RequestIntercept !in r.steps ==> IsSubseq(r.steps, [CreatePort, CreateSource, SpawnRunLoop])
    ensures RequestIntercept in r.steps <==> !restart && hasDelegate
    ensures CreatePort in r.steps
    ensures CreateSource in r.steps <==> portCreated
    ensures |r.steps| >= 1
    ensures RequestIntercept in r.steps ==> |r.steps| >= 2 && r.steps[0] == RequestIntercept && r.steps[1] == CreatePort
    ensures RequestIntercept !in r.steps ==> r.steps[0] == CreatePort
    ensures r.result == Fail(EventTapCreationFailure) <==> !portCreated
    ensures r.result == Fail(RunLoopSourceCreationFailure) <==> portCreated && !sourceCreated
    ensures r.result == Pass <==> portCreated && sourceCreated
    ensures !portCreated ==> CreateSource !in r.steps && r.steps[|r.steps| - 1] == CreatePort
    ensures SpawnRunLoop in r.steps <==> r.result.Pass?
    ensures r.handles.port == portCreated
    ensures r.handles.source == (if portCreated then sourceCreated else h.source)
    ensures r.handles.runLoop == (r.result.Pass? || h.runLoop)
  {
    var ask := !restart && hasDelegate;
    if !portCreated then
      TapRun(Fail(EventTapCreationFailure), h.(port := false),
             if ask then [RequestIntercept, CreatePort] else [CreatePort])
    else if !sourceCreated then
      TapRun(Fail(RunLoopSourceCreationFailure), h.(port := true, source := false),
             if ask then [RequestIntercept, CreatePort, CreateSource] else [CreatePort, CreateSource])
    else
      TapRun(Pass, TapHandles(true, true, true),
             if ask then [RequestIntercept, CreatePort, CreateSource, SpawnRunLoop]
             else [CreatePort, CreateSource, SpawnRunLoop])
  }

  /** `stopWatchingMediaKeys`: invalidate the source, stop the run loop and
      invalidate the port, each only when held, in that order. The fields are
      not cleared. */
  function StopWatching(h: TapHandles): (r: TapRun)
    ensures r.result == Pass && r.handles == h
    ensures InvalidateSource in r.steps <==> h.source
    ensures StopRunLoop in r.steps <==> h.runLoop
    ensures InvalidatePort in r.steps <==> h.port
    ensures IsSubseq(r.steps, [InvalidateSource, StopRunLoop, InvalidatePort])
  {
    var steps := (if h.source then [InvalidateSource] else [])
               + (if h.runLoop then [StopRunLoop] else [])
               + (if h.port then [InvalidatePort] else []);
    TapRun(Pass, h, steps)
  }

  /** `restartTap`: stop, then start again with `restart` set. The teardown
      comes first, and what follows it is exactly a start that does not ask the
      delegate to turn interception on. */
  function RestartTap(h: TapHandles, hasDelegate: bool, portCreated: bool, sourceCreated: bool): (r: TapRun)
    ensures var stop := StopWatching(h);
      var start := StartKeyEventTap(stop.handles, true, hasDelegate, portCreated, sourceCreated);
      && r.steps == stop.steps + start.steps
      && r.result == start.result
      && r.handles == start.handles
  {
    var stop := StopWatching(h);
    var start := StartKeyEventTap(stop.handles, true, hasDelegate, portCreated, sourceCreated);
    TapRun(start.result, start.handles, stop.steps + start.steps)
  }

  /** A restart first tears down exactly what `stopWatchingMediaKeys` would,
      and never asks the delegate to turn interception on. */
  lemma RestartTearsDownFirst(h: TapHandles, hasDelegate: bool, portCreated: bool, sourceCreated: bool)
    ensures var r := RestartTap(h, hasDelegate, portCreated, sourceCreated);
      var stop := StopWatching(h).steps;
      && RequestIntercept !in r.steps
      && |stop| <= |r.steps|
      && r.steps[..|stop|] == stop
  {
    var stop := StopWatching(h);
    var start := StartKeyEventTap(h, true, hasDelegate, portCreated, sourceCreated);
    assert RestartTap(h, hasDelegate, portCreated, sourceCreated).steps == stop.steps + start.steps;
    SubseqMembers(stop.steps, [InvalidateSource, StopRunLoop, InvalidatePort]);
    assert (stop.steps + start.steps)[..|stop.steps|] == stop.steps;
  }

  /** After the teardown a restart re-creates the port, then the source when
      the port was granted, then spawns the run loop exactly when the restart
      succeeds. It fails exactly when a first start would and leaves the
      handles a first start would. */
  lemma RestartRebuilds(h: TapHandles, hasDelegate: bool, portCreated: bool, sourceCreated: bool)
    ensures var r := RestartTap(h, hasDelegate, portCreated, sourceCreated);
      var first := StartKeyEventTap(h, false, hasDelegate, portCreated, sourceCreated);
      var rebuild := r.steps[|StopWatching(h).steps|..];
      && IsSubseq(rebuild, [CreatePort, CreateSource, SpawnRunLoop])
      && CreatePort in rebuild
      && (CreateSource in rebuild <==> portCreated)
      && (SpawnRunLoop in rebuild <==> r.result.Pass?)
      && r.result == first.result
      && r.handles == first.handles
  {
    var stop := StopWatching(h);
    var start := StartKeyEventTap(h, true, hasDelegate, portCreated, sourceCreated);
    assert RestartTap(h, hasDelegate, portCreated, sourceCreated).steps == stop.steps + start.steps;
    assert (stop.steps + start.steps)[|stop.steps|..] == start.steps;
  }

  /** `enableTap`: schedule the enable/disable on the tap's run loop and wake it,
      but only when both a port and a run loop are held. */
  function EnableTap(h: TapHandles, on: bool): (steps: seq<TapStep>)
    ensures steps != [] <==> h.port && h.runLoop
    ensures steps != [] ==> steps == [PerformEnable(on), WakeRunLoop]
  {
    if h.port && h.runLoop then [PerformEnable(on), WakeRunLoop] else []
  }
}

=== FILE: wrappers.dfy ===
/** Failure-compatible wrappers shared by the model: Swift optionals and thrown errors. */
module Wrappers {

  /** A Swift optional: `nil` or a wrapped value. */
  datatype Option<+T> = None | Some(value: T) {

    /** The wrapped value, or `default` when there is none (Swift's `??`). */
    function GetOr(default: T): T {
      match this
      case Some(v) => v
      case None => default
    }
  }

  /** The outcome of a Swift `throws` function that returns nothing. */
  datatype Outcome<+E> = Pass | Fail(error: E)
}
